=== FILE: README.md ===
# Soil-moisture device agent: the fail-soft CounterFit bridge

This project models the device side of a soil-moisture monitor that talks to a
CounterFit hardware simulator over HTTP. It covers three pieces:

- `wait_till_counterfit`, the start-up loop that probes the backend until it
  answers. `max_attempts = -1` means retry forever. The loop sleeps once after
  every failed probe and raises when the budget runs out.
- `CircuitBrokenADC.read` and `CircuitBrokenRelay.on/off/_set_state`, the
  wrappers that turn a connection error into an ordinary return value: `None`
  for a reading, `False` for a relay write.
- `SoilMoistureMonitor.handle_request` and `get_reading`: the dispatch of
  remote relay commands and the publishing of one reading as telemetry.

The backend is an oracle. Every call into the CounterFit client is an
`Outcome`: it returns a value, raises a `ConnectionError`, or raises some other
failure. Only `ConnectionError` is absorbed by the wrappers; every other failure
propagates, as in the Python `except` clauses. The connection loop takes the
sequence of answers its probes receive. It returns the way the call ends
(`Connected`, `Exhausted` or `Escaped`), the number of probes sent and the
number of sleeps taken. Each wrapper takes the one answer its backend call
receives and records the request it sent: the port queried, or the pin and value
written. The monitor's relay, ADC and device client are recorded as a trace of
events. A collaborator call that raises ends the handler at that point.

Modules:

- `Backend` (`backend.dfy`): `Option`, `Failure`, `Outcome`.
- `CircuitBroken` (`circuit_broken.dfy`): the connection loop, as a functional
  definition (`Wait`/`Run`) and as an imperative `while` loop
  (`WaitTillCounterfit`), plus the ADC and relay wrappers.
- `Monitor` (`monitor.dfy`): the command handler and the reading step, and
  how they combine with the circuit-broken wrappers.

Two details of the connection loop:

- The code sleeps after every failed probe, the last one included, before it
  raises (soil-moisture-sensor/counterfit_circuit_broken.py:26-30).
- The exhaustion error carries the raw `max_attempts` value. For a negative
  value other than -1 the call raises at once, and the message names that value.

## Model

| member | source | states |
|---|---|---|
| CircuitBroken.BudgetOf | soil-moisture-sensor/counterfit_circuit_broken.py:19 | The loop guard `max_attempts == -1 or attempts < max_attempts` allows another attempt exactly when the derived budget does; the budget is unbounded exactly for -1 |
| CircuitBroken.Run | soil-moisture-sensor/counterfit_circuit_broken.py:18-30 | From any point of the loop, sleeps never fall below the failures so far, and there is at most one more probe than sleeps; probes equal sleeps exactly when the call ends by exhaustion |
| CircuitBroken.RunShape | soil-moisture-sensor/counterfit_circuit_broken.py:18-30 | With k leading connection errors: if the budget allows a (k+1)-th probe, the call sends k+1 probes, sleeps k times and connects (or propagates a non-connection failure); otherwise it sends exactly the budgeted number of probes, sleeps as often, and raises the exhaustion error with host, port and max_attempts |
| CircuitBroken.Wait | soil-moisture-sensor/counterfit_circuit_broken.py:12-30 | A whole call: with k leading connection errors, if the budget allows a (k+1)-th probe it sends k+1 probes, sleeps k times and connects (or propagates a non-connection failure); otherwise it sends exactly the budgeted number of probes, sleeps as often, and raises the exhaustion error |
| CircuitBroken.DefaultsRetryForever | soil-moisture-sensor/counterfit_circuit_broken.py:12-19 | With its default arguments (localhost, port 5000, max_attempts -1) the call never gives up and ends on the first answer that is not a connection error |
| CircuitBroken.WaitSleepsOncePerRefusal | soil-moisture-sensor/counterfit_circuit_broken.py:22-28 | The number of sleeps equals the number of connection errors among the probes sent; a successful probe is followed by no sleep; no answer beyond those given is ever needed |
| CircuitBroken.DeadBackendExhausts | soil-moisture-sensor/counterfit_circuit_broken.py:18-30 | With max_attempts = N >= 0 and every probe refused, exactly N probes and N sleeps happen and the call raises the exhaustion error; N = 0 sends no probe |
| CircuitBroken.RecoversAfterRefusals | soil-moisture-sensor/counterfit_circuit_broken.py:19-23 | If k probes are refused and probe k+1 is accepted, with k < N or N = -1, the call returns normally after exactly k+1 probes and k sleeps |
| CircuitBroken.ForeverDecidesOnAnyAnswer | soil-moisture-sensor/counterfit_circuit_broken.py:19 | With max_attempts = -1, a finite run exists exactly when some probe gets an answer other than a connection error |
| CircuitBroken.ForeverNeverExhausts | soil-moisture-sensor/counterfit_circuit_broken.py:19-23 | With max_attempts = -1 the call never raises for exhaustion; it ends on the first answer that is not a connection error |
| CircuitBroken.NegativeBudgetSendsNoProbe | soil-moisture-sensor/counterfit_circuit_broken.py:19-30 | Any max_attempts below -1 sends no probe, takes no sleep and raises at once |
| CircuitBroken.WaitTillCounterfit | soil-moisture-sensor/counterfit_circuit_broken.py:12-30 | The imperative loop ends exactly as the functional definition does; it raises for exhaustion iff the budget runs out before a non-refused answer; it connects iff its last probe was accepted; sleeps equal the refused probes among those sent |
| CircuitBroken.TwoRefusalsThenConnect | soil-moisture-sensor/test_counterfit_circuit_broken.py:34-44 | Two refused probes and then an accepted one, with ten attempts allowed: three probes, two sleeps, connected |
| CircuitBroken.Read | soil-moisture-sensor/counterfit_circuit_broken.py:38-44 | An explicit channel is the port queried, otherwise the bound pin (possibly none); a value from the backend is returned unchanged; a connection error becomes None and is never raised; only other failures escape |
| CircuitBroken.ExplicitChannelOverridesPin | soil-moisture-sensor/counterfit_circuit_broken.py:38-39 | With an explicit channel, two ADCs built with any pins (or none) query that channel and behave identically |
| CircuitBroken.SetState | soil-moisture-sensor/counterfit_circuit_broken.py:58-64 | The write goes to the bound pin with the given value; a connection error is never raised; the result is True iff the backend accepted it, False iff it was unreachable, and only other failures escape |
| CircuitBroken.On | soil-moisture-sensor/counterfit_circuit_broken.py:52-53 | Writes True to the bound pin; returns True iff the backend accepted the write, returns False (without raising) iff it was unreachable, and raises only on other failures |
| CircuitBroken.Off | soil-moisture-sensor/counterfit_circuit_broken.py:55-56 | Writes False to the bound pin; returns True iff the backend accepted the write, returns False (without raising) iff it was unreachable, and raises only on other failures |
| CircuitBroken.OnOffDifferOnlyInValue | soil-moisture-sensor/counterfit_circuit_broken.py:52-56 | on and off address the same pin, write opposite values and report the same result for the same backend answer |
| Monitor.HandleRequest | soil-moisture-sensor/app_class.py:18-25 | relay_on calls relay.on exactly once and never relay.off, and the reverse for relay_off; any other name touches no relay; unless the relay call raises, exactly one method response with status 200 is sent, as the last event, and only a failing send then raises; if the relay call raises, no response is sent and its failure escapes |
| Monitor.RelayResultIgnored | soil-moisture-sensor/app_class.py:19-25 | The boolean the relay returns does not change what the handler does |
| Monitor.UnknownCommandOnlyResponds | soil-moisture-sensor/app_class.py:18-25 | Any name other than relay_on or relay_off produces the 200 response and nothing else |
| Monitor.HandleWithCircuitBrokenRelay | soil-moisture-sensor/app_class.py:18-25 | handle_request over a circuit-broken relay: relay_on writes True and relay_off writes False to the relay's bound pin, any other name writes nothing; the trace holds exactly one relay.on call for relay_on, one relay.off call for relay_off, none otherwise, and no ADC read or telemetry; only a non-connection backend failure on a relay command stops the response; otherwise the single 200 response is sent and only a failing send raises |
| Monitor.CircuitBrokenRelayAlwaysResponds | soil-moisture-sensor/app_class.py:18-25 | Behind a circuit-broken relay, an unreachable backend never prevents the single 200 response |
| Monitor.GetReading | soil-moisture-sensor/app_class.py:27-31 | The ADC is read once, on channel 0, first; when the read returns, exactly one telemetry message follows and its soil_moisture is the value read (None included), and only a failing send then raises; when the read raises, no message is sent |
| Monitor.CircuitBrokenAdcAlwaysPublishes | soil-moisture-sensor/app_class.py:27-31 | Behind a circuit-broken ADC with any bound pin, a reading queries port 0 and publishes exactly one message carrying the backend's value, or None when the backend is unreachable |

## Left out

- The CounterFit HTTP client (`CounterFitConnection.init`, `get_sensor_int_value`, `set_actuator_boolean_value`): a foreign library; each call is an input outcome.
- Logging and `print`: they write text only, and the model's results and traces do not record it.
- CircuitBroken.Wait: `time_between` (10 seconds by default) only sets how long each sleep lasts, which the model does not track; sleeps are counted, and the model assumes `time_between >= 0`. A negative value makes `sleep` raise `ValueError` at the first refused probe, ending the call without a retry; that error path is not modelled. The other defaults of `wait_till_counterfit` are the constants `DefaultHost`, `DefaultPort` and `DefaultMaxAttempts`.
- The IoT Hub SDK plumbing in `connect` and `main`, and the construction of `Message` and `MethodResponse` objects: SDK calls. A message is a record with a `soil_moisture` field, and a response is a request id with a status.
- JSON encoding of the telemetry body: a library call.
- `take_readings`: a non-terminating polling loop; each of its iterations is `GetReading`.
- The cloud threshold handler: `handler.py`'s threshold logic is not modelled.
- A rule that no read or write happens before the connection is established: the code does not enforce it.
- CircuitBroken.Wait: the probe answers are a finite sequence, and the call requires it to be long enough to settle the run (`Decides`). An unbounded run against a backend that never answers has no model. With `max_attempts = -1` this means some answer is not a connection error.

=== FILE: backend.dfy ===
/**
  The CounterFit backend as seen by the device agent. Every call into the
  CounterFit HTTP client either returns a value or raises; the only exception
  the agent treats specially is the transport-level `ConnectionError`, so the
  model distinguishes it from every other failure.
 */
module Backend {

  /** Python's `Optional[T]`: `None` or a present value. */
  datatype Option<+T> = None | Some(value: T)

  /** Why a backend call raised instead of returning. */
  datatype Failure =
    | ConnectionError   // the backend could not be reached
    | OtherError        // anything else (a malformed body, an HTTP library fault, ...)

  /** The outcome of one call: it returned `value`, or it raised `failure`. */
  datatype Outcome<+T> = Ok(value: T) | Fail(failure: Failure) {

    /** True when the call raised a connection error, the one failure the wrappers absorb. */
    predicate Unreachable() {
      Fail? && failure == ConnectionError
    }
  }

  /** Any call whose normal return carries nothing: the liveness probe
      `POST /connect`, the actuator write `POST /actuator_value`, and the
      device client's sends. */
  type Ack = Outcome<()>
}

=== FILE: circuit_broken.dfy ===
/**
  The fail-soft bridge to the CounterFit backend: the start-up connection
  loop `wait_till_counterfit` and the `CircuitBrokenADC` / `CircuitBrokenRelay`
  wrappers that turn a connection error into an ordinary return value.

  The backend is an oracle. The connection loop receives the sequence of
  answers its successive `POST /connect` probes get; each wrapper receives the
  one answer its single backend call gets, and reports the request it sent.
  Logging writes text only, and the results here do not record it. Sleeps are counted, not timed, and
  the delay between attempts is taken to be non-negative (a negative delay
  would make the sleep itself raise, which is not modelled).
 */
module CircuitBroken {
  import opened Backend

  /* ---------------------------------------------------------------------- */
  /* wait_till_counterfit                                                   */
  /* ---------------------------------------------------------------------- */

  /** The defaults of `wait_till_counterfit`'s keyword arguments. The delay
      between attempts, ten seconds by default, only sets how long each
      counted sleep lasts and is not modelled. */
  const DefaultHost: string := "localhost"
  const DefaultPort: int := 5000
  const DefaultMaxAttempts: int := -1

  /** The attempt budget a `max_attempts` argument stands for. */
  datatype Budget = Forever | AtMost(n: nat)

  /** True when a budget still allows another attempt after `done` failed ones. */
  predicate Permits(b: Budget, done: nat) {
    b.Forever? || done < b.n
  }

  /** `max_attempts == -1` retries forever; any other value allows that many
      attempts, which is none at all for every other negative value. */
  function BudgetOf(maxAttempts: int): (b: Budget)
    ensures b.Forever? <==> maxAttempts == -1
    ensures forall done: nat :: Permits(b, done) <==> (maxAttempts == -1 || done < maxAttempts)
  {
    if maxAttempts == -1 then Forever
    else if maxAttempts < 0 then AtMost(0)
    else AtMost(maxAttempts)
  }

  /** The number of probe answers, from the start, that are connection errors. */
  function LeadingRefusals(probes: seq<Ack>): (k: nat)
    ensures k <= |probes|
    ensures forall i :: 0 <= i < k ==> probes[i].Unreachable()
    ensures k < |probes| ==> !probes[k].Unreachable()
  {
    if |probes| == 0 || !probes[0].Unreachable() then 0
    else 1 + LeadingRefusals(probes[1..])
  }

  /** The number of connection errors among the first n answers. */
  function Refusals(probes: seq<Ack>, n: nat): nat
    requires n <= |probes|
  {
    if n == 0 then 0
    else Refusals(probes, n - 1) + (if probes[n - 1].Unreachable() then 1 else 0)
  }

  /** The answers settle a run: the loop never asks for an answer beyond the
      sequence, because an answer other than a connection error comes first
      or the budget runs out first. */
  predicate Decides(maxAttempts: int, probes: seq<Ack>) {
    var k := LeadingRefusals(probes);
    k < |probes| || !Permits(BudgetOf(maxAttempts), k)
  }

  /** How a call of `wait_till_counterfit` ends. */
  datatype WaitResult =
    | Connected
      /** the budget ran out: raised as a connection error naming host, port and max_attempts */
    | Exhausted(host: string, port: int, maxAttempts: int)
      /** a probe failure other than a connection error, propagated unchanged */
    | Escaped(failure: Failure)

  /** The end of a call together with the number of probes it sent and of sleeps it took. */
  datatype WaitRun = WaitRun(result: WaitResult, tries: nat, sleeps: nat)

  /** The connection loop from the point where `attempts` probes have failed
      with a connection error. */
  function Run(host: string, port: int, maxAttempts: int, probes: seq<Ack>, attempts: nat): (r: WaitRun)
    requires Decides(maxAttempts, probes)
    requires attempts <= LeadingRefusals(probes)
    ensures attempts <= r.sleeps <= r.tries <= r.sleeps + 1
    ensures r.tries == r.sleeps <==> r.result.Exhausted?
    decreases |probes| - attempts
  {
    if !(maxAttempts == -1 || attempts < maxAttempts) then
      WaitRun(Exhausted(host, port, maxAttempts), attempts, attempts)
    else
      assert Permits(BudgetOf(maxAttempts), attempts);
      match probes[attempts]
      case Ok(_) => WaitRun(Connected, attempts + 1, attempts)
      case Fail(OtherError) => WaitRun(Escaped(OtherError), attempts + 1, attempts)
      case Fail(ConnectionError) => Run(host, port, maxAttempts, probes, attempts + 1)
  }

  /** `wait_till_counterfit(host, port, max_attempts=maxAttempts)` against a
      backend whose successive probes get the answers `probes`. With k leading
      connection errors, the call connects (or propagates a non-connection
      failure) on probe k + 1 when the budget allows it, and otherwise gives up
      after exactly the budgeted number of probes, having slept after each. */
  function Wait(host: string, port: int, maxAttempts: int, probes: seq<Ack>): (r: WaitRun)
    requires Decides(maxAttempts, probes)
    ensures var k := LeadingRefusals(probes);
            if Permits(BudgetOf(maxAttempts), k) then
              && k < |probes|
              && r.tries == k + 1 && r.sleeps == k
              && r.result == (if probes[k].Ok? then Connected else Escaped(OtherError))
            else
              && BudgetOf(maxAttempts).AtMost?
              && r.tries == BudgetOf(maxAttempts).n && r.sleeps == BudgetOf(maxAttempts).n
              && r.result == Exhausted(host, port, maxAttempts)
  {
    RunShape(host, port, maxAttempts, probes, 0);
    Run(host, port, maxAttempts, probes, 0)
  }

  /** The outcome of the connection loop from any reachable point: with k
      leading connection errors, the call connects (or propagates) on probe
      k + 1 when the budget allows it, and otherwise gives up after exactly the
      budgeted number of probes, having slept once after each. */
  lemma {:induction false} RunShape(host: string, port: int, maxAttempts: int, probes: seq<Ack>, attempts: nat)
    requires Decides(maxAttempts, probes)
    requires attempts <= LeadingRefusals(probes)
    requires BudgetOf(maxAttempts).AtMost? ==> attempts <= BudgetOf(maxAttempts).n
    ensures var k := LeadingRefusals(probes);
            var r := Run(host, port, maxAttempts, probes, attempts);
            if Permits(BudgetOf(maxAttempts), k) then
              && k < |probes|
              && r.tries == k + 1 && r.sleeps == k
              && r.result == (if probes[k].Ok? then Connected else Escaped(OtherError))
            else
              && BudgetOf(maxAttempts).AtMost?
              && r.tries == BudgetOf(maxAttempts).n && r.sleeps == BudgetOf(maxAttempts).n
              && r.result == Exhausted(host, port, maxAttempts)
    decreases |probes| - attempts
  {
    var k := LeadingRefusals(probes);
    if maxAttempts == -1 || attempts < maxAttempts {
      assert Permits(BudgetOf(maxAttempts), attempts);
      if attempts < k {
        assert probes[attempts].Unreachable();
        RunShape(host, port, maxAttempts, probes, attempts + 1);
      }
    }
  }

  /** A prefix of connection errors counts toward the leading refusals. */
  lemma RefusedPrefixIsLeading(probes: seq<Ack>, j: nat)
    requires j <= |probes|
    requires forall i :: 0 <= i < j ==> probes[i].Unreachable()
    ensures j <= LeadingRefusals(probes)
  {
  }

  /** Every answer of a prefix of connection errors is counted. */
  lemma {:induction false} RefusalsOfRefusedPrefix(probes: seq<Ack>, j: nat)
    requires j <= |probes|
    requires forall i :: 0 <= i < j ==> probes[i].Unreachable()
    ensures Refusals(probes, j) == j
  {
    if j > 0 {
      RefusalsOfRefusedPrefix(probes, j - 1);
    }
  }

  /** One sleep per failed probe, including the last one before giving up,
      and none after a successful probe. */
  lemma WaitSleepsOncePerRefusal(host: string, port: int, maxAttempts: int, probes: seq<Ack>)
    requires Decides(maxAttempts, probes)
    ensures Wait(host, port, maxAttempts, probes).tries <= |probes|
    ensures var r := Wait(host, port, maxAttempts, probes);
            r.sleeps == Refusals(probes, r.tries)
  {
    var k := LeadingRefusals(probes);
    var r := Wait(host, port, maxAttempts, probes);
    if Permits(BudgetOf(maxAttempts), k) {
      RefusalsOfRefusedPrefix(probes, k);
    } else {
      RefusalsOfRefusedPrefix(probes, r.tries);
    }
  }

  /** A backend that refuses every probe: with `max_attempts = n >= 0` the call
      probes exactly n times, sleeps n times and then raises. */
  lemma DeadBackendExhausts(host: string, port: int, n: nat, probes: seq<Ack>)
    requires n <= |probes|
    requires forall i :: 0 <= i < n ==> probes[i].Unreachable()
    ensures Decides(n, probes)
    ensures Wait(host, port, n, probes) == WaitRun(Exhausted(host, port, n), n, n)
  {
    RefusedPrefixIsLeading(probes, n);
  }

  /** k refused probes followed by an accepted one, within the budget: the call
      returns normally after exactly k + 1 probes and k sleeps. */
  lemma RecoversAfterRefusals(host: string, port: int, maxAttempts: int, probes: seq<Ack>, k: nat)
    requires k < |probes|
    requires forall i :: 0 <= i < k ==> probes[i].Unreachable()
    requires probes[k].Ok?
    requires maxAttempts == -1 || k < maxAttempts
    ensures Decides(maxAttempts, probes)
    ensures Wait(host, port, maxAttempts, probes) == WaitRun(Connected, k + 1, k)
  {
    RefusedPrefixIsLeading(probes, k);
  }

  /** With `max_attempts == -1` the answers settle the call exactly when one of
      them is not a connection error. */
  lemma ForeverDecidesOnAnyAnswer(probes: seq<Ack>)
    ensures Decides(-1, probes) <==> exists i :: 0 <= i < |probes| && !probes[i].Unreachable()
  {
    var k := LeadingRefusals(probes);
    if k < |probes| {
      assert !probes[k].Unreachable();
    }
  }

  /** `max_attempts == -1` never gives up: the call ends on the first answer
      that is not a connection error. */
  lemma ForeverNeverExhausts(host: string, port: int, probes: seq<Ack>)
    requires Decides(-1, probes)
    ensures !Wait(host, port, -1, probes).result.Exhausted?
    ensures Wait(host, port, -1, probes).tries == LeadingRefusals(probes) + 1
  {
  }

  /** Called with its defaults, the loop retries forever against `localhost:5000`:
      it never gives up and ends on the first answer that is not a connection error. */
  lemma DefaultsRetryForever(probes: seq<Ack>)
    requires Decides(DefaultMaxAttempts, probes)
    ensures BudgetOf(DefaultMaxAttempts) == Forever
    ensures var r := Wait(DefaultHost, DefaultPort, DefaultMaxAttempts, probes);
            && !r.result.Exhausted?
            && r.tries == LeadingRefusals(probes) + 1
            && r.result == (if probes[r.tries - 1].Ok? then Connected else Escaped(OtherError))
  {
  }

  /** Any negative `max_attempts` other than -1 sends no probe and raises at once. */
  lemma NegativeBudgetSendsNoProbe(host: string, port: int, maxAttempts: int, probes: seq<Ack>)
    requires maxAttempts < -1
    ensures Decides(maxAttempts, probes)
    ensures Wait(host, port, maxAttempts, probes) == WaitRun(Exhausted(host, port, maxAttempts), 0, 0)
  {
  }

  /** The loop of `wait_till_counterfit`: probe, and on a connection error sleep
      and count the failure, while the budget allows another attempt. */
  method WaitTillCounterfit(host: string, port: int, maxAttempts: int, probes: seq<Ack>)
    returns (result: WaitResult, tries: nat, sleeps: nat)
    requires Decides(maxAttempts, probes)
    ensures WaitRun(result, tries, sleeps) == Wait(host, port, maxAttempts, probes)
    ensures tries <= |probes| && sleeps == Refusals(probes, tries)
    ensures result.Exhausted? <==> !Permits(BudgetOf(maxAttempts), LeadingRefusals(probes))
    ensures result.Exhausted? ==> tries == sleeps == BudgetOf(maxAttempts).n
    ensures result.Connected? <==> tries > 0 && probes[tries - 1].Ok?
    ensures !result.Exhausted? ==> tries == LeadingRefusals(probes) + 1
  {
    WaitSleepsOncePerRefusal(host, port, maxAttempts, probes);
    var attempts: nat := 0;
    tries, sleeps := 0, 0;
    while maxAttempts == -1 || attempts < maxAttempts
      invariant attempts <= LeadingRefusals(probes)
      invariant tries == sleeps == attempts
      invariant Run(host, port, maxAttempts, probes, attempts) == Wait(host, port, maxAttempts, probes)
      decreases |probes| - attempts
    {
      assert Permits(BudgetOf(maxAttempts), attempts);
      tries := tries + 1;
      match probes[attempts]
      case Ok(_) =>
        result := Connected;
        return;
      case Fail(OtherError) =>
        result := Escaped(OtherError);
        return;
      case Fail(ConnectionError) =>
        sleeps := sleeps + 1;
        attempts := attempts + 1;
    }
    result := Exhausted(host, port, maxAttempts);
  }

  /** The scenario of a backend that refuses twice and then answers, with ten
      attempts allowed: three probes, two sleeps. */
  lemma TwoRefusalsThenConnect(host: string, port: int)
    ensures var probes := [Fail(ConnectionError), Fail(ConnectionError), Ok(())];
            && Decides(10, probes)
            && Wait(host, port, 10, probes) == WaitRun(Connected, 3, 2)
  {
    var probes: seq<Ack> := [Fail(ConnectionError), Fail(ConnectionError), Ok(())];
    RecoversAfterRefusals(host, port, 10, probes, 2);
  }

  /* ---------------------------------------------------------------------- */
  /* CircuitBrokenADC                                                       */
  /* ---------------------------------------------------------------------- */

  /** `CircuitBrokenADC(pin)`; the pin is `None` when none was bound. */
  datatype CircuitBrokenAdc = CircuitBrokenAdc(pin: Option<int>)

  /** One `read`: the port queried with `GET /sensor_value` and what the
      caller got back, a value or `None`, or an escaping failure. */
  datatype SensorRead = SensorRead(queried: Option<int>, result: Outcome<Option<int>>)

  /** `adc.read(channel)` where the backend answers the query with `reply`. */
  function Read(adc: CircuitBrokenAdc, channel: Option<int>, reply: Outcome<int>): (r: SensorRead)
    ensures channel.Some? ==> r.queried == channel
    ensures channel.None? ==> r.queried == adc.pin
    ensures !r.result.Unreachable()
    ensures r.result == Ok(None) <==> reply.Unreachable()
    ensures reply.Ok? <==> r.result.Ok? && r.result.value.Some?
    ensures reply.Ok? ==> r.result.value.value == reply.value
    ensures r.result.Fail? <==> reply == Fail(OtherError)
  {
    var pin := if channel.Some? then channel else adc.pin;
    match reply
    case Ok(v) => SensorRead(pin, Ok(Some(v)))
    case Fail(ConnectionError) => SensorRead(pin, Ok(None))
    case Fail(OtherError) => SensorRead(pin, Fail(OtherError))
  }

  /** An explicit channel decides the query on its own: the pin bound at
      construction, or the absence of one, makes no difference. */
  lemma ExplicitChannelOverridesPin(a: CircuitBrokenAdc, b: CircuitBrokenAdc, channel: int, reply: Outcome<int>)
    ensures Read(a, Some(channel), reply) == Read(b, Some(channel), reply)
    ensures Read(a, Some(channel), reply).queried == Some(channel)
  {
  }

  /* ---------------------------------------------------------------------- */
  /* CircuitBrokenRelay                                                     */
  /* ---------------------------------------------------------------------- */

  /** `CircuitBrokenRelay(pin)`. */
  datatype CircuitBrokenRelay = CircuitBrokenRelay(pin: int)

  /** The body of one `POST /actuator_value?port={pin}` request. */
  datatype Write = Write(pin: int, value: bool)

  /** One state change: the request sent and what the caller got back. */
  datatype ActuatorWrite = ActuatorWrite(sent: Write, result: Outcome<bool>)

  /** `relay._set_state(val)` where the backend answers the write with `reply`. */
  function SetState(relay: CircuitBrokenRelay, val: bool, reply: Ack): (r: ActuatorWrite)
    ensures r.sent == Write(relay.pin, val)
    ensures !r.result.Unreachable()
    ensures r.result == Ok(true) <==> reply.Ok?
    ensures r.result == Ok(false) <==> reply.Unreachable()
    ensures r.result.Fail? <==> reply == Fail(OtherError)
  {
    var sent := Write(relay.pin, val);
    match reply
    case Ok(_) => ActuatorWrite(sent, Ok(true))
    case Fail(ConnectionError) => ActuatorWrite(sent, Ok(false))
    case Fail(OtherError) => ActuatorWrite(sent, Fail(OtherError))
  }

  /** `relay.on()`: writes `True` to the bound pin. */
  function On(relay: CircuitBrokenRelay, reply: Ack): (r: ActuatorWrite)
    ensures r.sent == Write(relay.pin, true)
    ensures !r.result.Unreachable()
    ensures r.result == Ok(true) <==> reply.Ok?
    ensures r.result == Ok(false) <==> reply.Unreachable()
    ensures r.result.Fail? <==> reply == Fail(OtherError)
  {
    SetState(relay, true, reply)
  }

  /** `relay.off()`: writes `False` to the bound pin. */
  function Off(relay: CircuitBrokenRelay, reply: Ack): (r: ActuatorWrite)
    ensures r.sent == Write(relay.pin, false)
    ensures !r.result.Unreachable()
    ensures r.result == Ok(true) <==> reply.Ok?
    ensures r.result == Ok(false) <==> reply.Unreachable()
    ensures r.result.Fail? <==> reply == Fail(OtherError)
  {
    SetState(relay, false, reply)
  }

  /** `on` and `off` differ only in the value written: same pin, same report. */
  lemma OnOffDifferOnlyInValue(relay: CircuitBrokenRelay, reply: Ack)
    ensures On(relay, reply).sent.pin == Off(relay, reply).sent.pin == relay.pin
    ensures On(relay, reply).sent.value != Off(relay, reply).sent.value
    ensures On(relay, reply).result == Off(relay, reply).result
  {
  }
}

=== FILE: monitor.dfy ===
/**
  `SoilMoistureMonitor`: the device-side handler of remote commands and the
  one-shot reading step of the polling loop. The relay, the ADC and the IoT
  Hub device client are collaborators; what the monitor does to them is
  recorded as a trace of events, and what each collaborator call does is an
  input. A collaborator call that raises ends the handler there: Python
  propagates the exception, so nothing after it happens.
 */
module Monitor {
  import opened Backend
  import CircuitBroken

  /** A direct-method request from the cloud, as far as the monitor reads it. */
  datatype MethodRequest = MethodRequest(requestId: string, name: string)

  /** What the monitor does to its collaborators, in order. */
  datatype Event =
    | RelayOn                                      // relay.on()
    | RelayOff                                     // relay.off()
    | AdcRead(channel: int)                        // adc.read(channel)
    | MethodResponse(requestId: string, status: int) // device_client.send_method_response(...)
    | Telemetry(soilMoisture: Option<int>)         // device_client.send_message({"soil_moisture": ...})

  /** The events of one handler call and the failure it let escape, if any.
      The device client's calls reuse the backend's `Failure` taxonomy: the
      handlers never catch what the client raises, so they never tell its
      failures apart, and the label only records that the call raised. */
  datatype Effects = Effects(trace: seq<Event>, raised: Option<Failure>)

  /** The status every method response carries. */
  const Accepted := 200

  /** The commands that drive the relay. */
  predicate IsRelayCommand(name: string) {
    name == "relay_on" || name == "relay_off"
  }

  /** The trace holds `e` exactly once, as its last event. */
  predicate EndsWithOnly(trace: seq<Event>, e: Event) {
    && |trace| > 0
    && trace[|trace| - 1] == e
    && forall i :: 0 <= i < |trace| - 1 ==> trace[i] != e
  }

  /** The failure a call lets escape, if it raised. */
  function Raised(call: Ack): Option<Failure> {
    match call
    case Ok(_) => None
    case Fail(failure) => Some(failure)
  }

  /** The trace sends no method response. */
  predicate NoResponse(trace: seq<Event>) {
    forall i :: 0 <= i < |trace| ==> !trace[i].MethodResponse?
  }

  /** `handle_request(request)` where the relay call, if one is made, ends
      with `relayCall`, and `send_method_response` ends with `sendCall`; the
      relay's own result is not looked at. */
  function HandleRequest(request: MethodRequest, relayCall: Outcome<bool>, sendCall: Ack): (e: Effects)
    ensures multiset(e.trace)[RelayOn] == (if request.name == "relay_on" then 1 else 0)
    ensures multiset(e.trace)[RelayOff] == (if request.name == "relay_off" then 1 else 0)
    ensures forall i :: 0 <= i < |e.trace| ==> !e.trace[i].AdcRead? && !e.trace[i].Telemetry?
    ensures IsRelayCommand(request.name) && relayCall.Fail? ==>
              e.raised == Some(relayCall.failure) && NoResponse(e.trace)
    ensures !(IsRelayCommand(request.name) && relayCall.Fail?) ==>
              && EndsWithOnly(e.trace, MethodResponse(request.requestId, Accepted))
              && (forall i :: 0 <= i < |e.trace| - 1 ==> !e.trace[i].MethodResponse?)
              && e.raised == Raised(sendCall)
  {
    var action :=
      if request.name == "relay_on" then [RelayOn]
      else if request.name == "relay_off" then [RelayOff]
      else [];
    if action != [] && relayCall.Fail? then
      Effects(action, Some(relayCall.failure))
    else
      Effects(action + [MethodResponse(request.requestId, Accepted)], Raised(sendCall))
  }

  /** The relay's boolean result never changes what the handler does. */
  lemma RelayResultIgnored(request: MethodRequest, a: bool, b: bool, sendCall: Ack)
    ensures HandleRequest(request, Ok(a), sendCall) == HandleRequest(request, Ok(b), sendCall)
  {
  }

  /** Any other command name leaves the relay alone and is still answered. */
  lemma UnknownCommandOnlyResponds(request: MethodRequest, relayCall: Outcome<bool>, sendCall: Ack)
    requires !IsRelayCommand(request.name)
    ensures HandleRequest(request, relayCall, sendCall)
         == Effects([MethodResponse(request.requestId, Accepted)], Raised(sendCall))
  {
  }

  /** A handler call over a `CircuitBrokenRelay`: its effects, and the write the
      relay sent to the backend, if it was asked to switch. */
  datatype RelayDispatch = RelayDispatch(effects: Effects, written: Option<CircuitBroken.Write>)

  /** What the monitor does when its relay is a `CircuitBrokenRelay` whose
      write gets the backend answer `reply`. Any other command name makes no
      relay call, so no write is sent and `reply` plays no part. Only a
      backend failure other than a connection error, or a failed send, can
      make the handler raise. */
  function HandleWithCircuitBrokenRelay(relay: CircuitBroken.CircuitBrokenRelay, request: MethodRequest, reply: Ack, sendCall: Ack): (d: RelayDispatch)
    ensures request.name == "relay_on" ==> d.written == Some(CircuitBroken.Write(relay.pin, true))
    ensures request.name == "relay_off" ==> d.written == Some(CircuitBroken.Write(relay.pin, false))
    ensures !IsRelayCommand(request.name) ==> d.written.None?
    ensures multiset(d.effects.trace)[RelayOn] == (if request.name == "relay_on" then 1 else 0)
    ensures multiset(d.effects.trace)[RelayOff] == (if request.name == "relay_off" then 1 else 0)
    ensures forall i :: 0 <= i < |d.effects.trace| ==> !d.effects.trace[i].AdcRead? && !d.effects.trace[i].Telemetry?
    ensures IsRelayCommand(request.name) && reply == Fail(OtherError) ==>
              d.effects.raised == Some(OtherError) && NoResponse(d.effects.trace)
    ensures !(IsRelayCommand(request.name) && reply == Fail(OtherError)) ==>
              && d.effects.raised == Raised(sendCall)
              && EndsWithOnly(d.effects.trace, MethodResponse(request.requestId, Accepted))
  {
    if request.name == "relay_on" then
      var w := CircuitBroken.On(relay, reply);
      RelayDispatch(HandleRequest(request, w.result, sendCall), Some(w.sent))
    else if request.name == "relay_off" then
      var w := CircuitBroken.Off(relay, reply);
      RelayDispatch(HandleRequest(request, w.result, sendCall), Some(w.sent))
    else
      // no relay call is made; the handler never looks at the relay result
      RelayDispatch(HandleRequest(request, Ok(false), sendCall), None)
  }

  /** Behind a `CircuitBrokenRelay`, an unreachable backend never stops the
      response: every request is answered once with 200, and only a failing
      send can then raise. */
  lemma CircuitBrokenRelayAlwaysResponds(relay: CircuitBroken.CircuitBrokenRelay, request: MethodRequest, reply: Ack, sendCall: Ack)
    requires reply != Fail(OtherError)
    ensures HandleWithCircuitBrokenRelay(relay, request, reply, sendCall).effects.raised == Raised(sendCall)
    ensures EndsWithOnly(HandleWithCircuitBrokenRelay(relay, request, reply, sendCall).effects.trace, MethodResponse(request.requestId, Accepted))
  {
  }

  /** `get_reading()` where `adc.read(0)` ends with `adcCall` and
      `send_message` ends with `sendCall`. */
  function GetReading(adcCall: Outcome<Option<int>>, sendCall: Ack): (e: Effects)
    ensures |e.trace| > 0 && e.trace[0] == AdcRead(0)
    ensures forall i :: 0 <= i < |e.trace| && e.trace[i].AdcRead? ==> i == 0
    ensures forall i :: 0 <= i < |e.trace| ==> !e.trace[i].RelayOn? && !e.trace[i].RelayOff? && !e.trace[i].MethodResponse?
    ensures adcCall.Ok? ==> EndsWithOnly(e.trace, Telemetry(adcCall.value)) && e.raised == Raised(sendCall)
    ensures adcCall.Ok? ==> forall i :: 0 <= i < |e.trace| - 1 ==> !e.trace[i].Telemetry?
    ensures adcCall.Fail? ==> e.raised == Some(adcCall.failure) && forall i :: 0 <= i < |e.trace| ==> !e.trace[i].Telemetry?
  {
    match adcCall
    case Ok(v) => Effects([AdcRead(0), Telemetry(v)], Raised(sendCall))
    case Fail(f) => Effects([AdcRead(0)], Some(f))
  }

  /** Behind a `CircuitBrokenADC`, whatever pin it was built with, a reading
      queries port 0 and always publishes one message: the value read, or
      `None` when the backend is unreachable. */
  lemma CircuitBrokenAdcAlwaysPublishes(adc: CircuitBroken.CircuitBrokenAdc, reply: Outcome<int>, sendCall: Ack)
    requires reply != Fail(OtherError)
    ensures CircuitBroken.Read(adc, Some(0), reply).queried == Some(0)
    ensures var e := GetReading(CircuitBroken.Read(adc, Some(0), reply).result, sendCall);
            && e.raised == Raised(sendCall)
            && e.trace == [AdcRead(0), Telemetry(if reply.Ok? then Some(reply.value) else None)]
  {
  }
}
